=== FILE: README.md ===
# Banking back-office core, modelled in Dafny

This project models the parts of the BMS banking backend (a Spring Boot
service) that carry logic, as pure functions over immutable records:

- the **loan record** (`Loan.java`): the fixed base-rate table per loan
  type, the status setter whose approval and disbursement side effects fire
  only the first time, the tenure setter that derives the maturity date,
  and the guard structure of the monthly-instalment (EMI) computation;
- the **service rules** (`CustomerService.java`): registration with
  duplicate-login rejection, the plain credential check, the non-null field
  merge of a customer update, the loan catalogue, loan application with rate
  fallback, and the owner-checked loan lookup;
- the **session record** (`LoginRequest.java`): strict expiry, validity,
  invalidation and the `Bearer ` header;
- the **account balance** (`Account.java`): guarded deposit and withdraw;
- the **bearer-header gate** and the endpoints behind it
  (`CustomerController.java`).

Conventions. Every nullable Java reference is an `Option`; thrown exceptions
are `Result.Failure`. `LocalDateTime.now()` is an explicit `now: Instant`
argument (whole seconds). `plusMonths` is a caller-supplied `MonthAdder`.
`JwtUtil`, whose source is not part of this model, is a record of three
arbitrary functions (`generateToken`, `validateToken`, `extractUsername`),
so every property about the gate holds for every token utility; validation
reads the clock, so `validateToken` also receives the instant it runs at,
and a token may carry no subject, so `extractUsername` may yield null. `BigDecimal`
amounts and rates are exact `real`s. The customer table is a sequence whose
identity column counts from 1; the loan table is a map keyed by loan id.
`System.currentTimeMillis()` is the `millis` argument of loan application.

Modules: `Wrappers`, `Clock`, `Decimal` (rendering of `Long` ids), `Loans`,
`Accounts`, `Sessions`, `Customers`, `Repositories`, `CustomerService`,
`CustomerController`.

Where the code does something other than one might expect, the model
follows the code:

- a token is still live at the instant it expires (`isAfter` is strict);
- a supplied non-zero rate is kept even when negative (the fallback to the
  base rate fires only for a missing or zero rate);
- the zero-rate instalment is returned unrounded;
- the header gate consults only the token utility, never the session record,
  and logout revokes nothing;
- an application keeps whatever status the request body carried (the
  constructor default is PENDING);
- only some setters stamp `updatedAt` (`setLoanId`, `setCustomerId` and
  `setMonthlyEmi` do not).

## Model

| member | source | states |
|---|---|---|
| Loans.Ordinal | src/main/java/com/example/bms/models/Loan.java:11-16 | every loan type sits at exactly one position of the declaration-order list `LoanTypeValues` |
| Loans.GetBaseInterestRate | src/main/java/com/example/bms/models/Loan.java:278-280 | 0.0 without a loan type; otherwise the type's base rate, which is positive |
| Loans.NewLoan | src/main/java/com/example/bms/models/Loan.java:92-97 | a new loan is PENDING, stamped with the application time, and has no approval, disbursement or maturity date, no outstanding amount and no EMI |
| Loans.SetLoanStatus | src/main/java/com/example/bms/models/Loan.java:175-189 | any status may follow any status and becomes the loan's status; an existing approval or disbursement date is never overwritten; the first APPROVED stamps the approval date; the first DISBURSED stamps the disbursement date and opens the outstanding amount at the loan amount; amount, rate, tenure, EMI and maturity date never change |
| Loans.SetTenureMonths | src/main/java/com/example/bms/models/Loan.java:195-203 | the tenure is recorded; with a disbursement date and a non-null tenure the maturity date becomes disbursement date plus tenure months, otherwise it is untouched; nothing else but the update stamp changes |
| Loans.CalculateEmi | src/main/java/com/example/bms/models/Loan.java:283-298 | zero when amount, rate or tenure is missing or the tenure is not positive; at a zero rate an exact split whose tenure multiple is the principal; at any other rate the annuity on the principal, the monthly rate (annual/1200) and the tenure |
| Loans.EmiZeroExactly | src/main/java/com/example/bms/models/Loan.java:284-297 | the computation takes one of its two exact-zero exits (the early `ZERO` return, or the zero-rate split of a zero principal) if and only if an input is missing, the tenure is not positive, or the rate and principal are both zero; every other input reaches the straight-line split of a non-zero principal or the annuity formula |
| Loans.UpdateEmi | src/main/java/com/example/bms/models/Loan.java:300-303 | the stored EMI becomes the current computation, which the update does not change; only the EMI and the update stamp move |
| Loans.ApprovalDateIsFirstApproval | src/main/java/com/example/bms/models/Loan.java:179-182 | after any history of status changes the approval date is the one already set, or else the instant of the first APPROVED in the history |
| Loans.DisbursementIsFirstDisbursal | src/main/java/com/example/bms/models/Loan.java:184-188 | after any history the disbursement date is the first DISBURSED's instant (or the earlier one); the outstanding amount is the loan amount if that first disbursal happened in the history and untouched otherwise, so a second DISBURSED never resets it; amount and maturity date are untouched |
| Loans.LastStatusWins | src/main/java/com/example/bms/models/Loan.java:175-176 | after a non-empty history the status is the last one requested; no transition is refused |
| Loans.SetLoanStatusIdempotent | src/main/java/com/example/bms/models/Loan.java:175-189 | repeating a status change alters nothing but the update stamp |
| Loans.TenureLastCallWins | src/main/java/com/example/bms/models/Loan.java:195-202 | after disbursement, of two tenure changes the last one alone determines the maturity date |
| Loans.MaturityFollowsDisbursal | src/main/java/com/example/bms/models/Loan.java:184-202 | entering DISBURSED leaves the maturity date as it was; the next tenure change derives it from the disbursement instant |
| Loans.AnnuityExceedsStraightLine | src/main/java/com/example/bms/models/Loan.java:292-293 | over exact reals, at a positive monthly rate the annuity formula is defined (its denominator is positive) and each instalment exceeds principal/tenure |
| Decimal.FromNat | src/main/java/com/example/bms/controllers/CustomerController.java:73 | a rendered id is a non-empty digit string with a leading zero only for zero |
| Decimal.ToNatFromNat | src/main/java/com/example/bms/services/CustomerService.java:97 | reading a rendered number back gives the number |
| Decimal.FromNatInjective | src/main/java/com/example/bms/services/CustomerService.java:97 | distinct numbers render to distinct strings |
| Accounts.NewAccount | src/main/java/com/example/bms/models/Account.java:45-50 | a new account has balance 0 and is active |
| Accounts.OpenAccount | src/main/java/com/example/bms/models/Account.java:52-57 | the three-argument constructor also starts at balance 0, active, with the given number, owner and type |
| Accounts.Deposit | src/main/java/com/example/bms/models/Account.java:137-142 | a positive amount raises the balance by exactly that amount and touches nothing else; a non-positive amount changes nothing |
| Accounts.Withdraw | src/main/java/com/example/bms/models/Account.java:144-151 | succeeds if and only if the amount is positive and covered; success lowers the balance by exactly the amount; failure changes nothing; a non-negative balance stays non-negative |
| Accounts.DepositThenWithdrawRestores | src/main/java/com/example/bms/models/Account.java:137-151 | from a non-negative balance, depositing a positive amount and withdrawing it succeeds and restores the balance |
| Accounts.RunKeepsBalanceNonNegative | src/main/java/com/example/bms/models/Account.java:137-151 | no sequence of deposits and withdrawals drives a non-negative balance negative |
| Accounts.RunKeepsIdentity | src/main/java/com/example/bms/models/Account.java:137-151 | deposits and withdrawals never change the account number, owner, type, active flag or creation time |
| Sessions.ExpiryIsStrict | src/main/java/com/example/bms/models/LoginRequest.java:167-169 | without an expiry a session never expires; with one it is expired exactly at instants strictly after it, so not at the expiry instant itself |
| Sessions.ExpiryIsMonotone | src/main/java/com/example/bms/models/LoginRequest.java:167-177 | once expired, expired at every later instant; both validity predicates, once false through time, stay false |
| Sessions.InvalidateToken | src/main/java/com/example/bms/models/LoginRequest.java:179-183 | afterwards the session is inactive, both tokens are null, neither validity predicate holds at any instant, and every other field (expiry, customer details, credentials, timestamps) is kept |
| Sessions.InvalidateIdempotent | src/main/java/com/example/bms/models/LoginRequest.java:179-183 | invalidating twice gives the same record as invalidating once |
| Sessions.GenerateBearerTokenHeader | src/main/java/com/example/bms/models/LoginRequest.java:186-191 | a header exists if and only if the bearer token is non-null and non-empty; it starts with `Bearer ` and the rest is exactly the token |
| Sessions.SetCustomerDetails | src/main/java/com/example/bms/models/LoginRequest.java:194-199 | writes exactly the four customer fields; token, activity and expiry state, both validity predicates and the header are unchanged |
| Repositories.FindByLoginId | src/main/java/com/example/bms/repositories/CustomerRepository.java:17 | finds a customer if and only if one has that login id, and what it finds is a stored row with that login id |
| Repositories.FindById | src/main/java/com/example/bms/services/CustomerService.java:57 | finds a row exactly for identities 1..n; in a well-formed table that row carries the identity asked for |
| Repositories.InsertCustomer | src/main/java/com/example/bms/services/CustomerService.java:45 | a new row gets the next identity and is appended; a fresh login id keeps the table well formed |
| Repositories.UpdateCustomerRow | src/main/java/com/example/bms/services/CustomerService.java:76 | saving an existing customer overwrites its row and no other, and looking that identity up afterwards finds the saved customer |
| Repositories.InsertLoan | src/main/java/com/example/bms/models/Loan.java:41-55 | filing a loan with no amount, product or owner violates a NOT NULL column; otherwise it fails exactly when its id is already on file; on success the store gains that one entry and stays well formed |
| Repositories.FindByLoanId | src/main/java/com/example/bms/repositories/LoanRepository.java:16 | finds a loan exactly when the id is on file |
| Repositories.FindByCustomerId | src/main/java/com/example/bms/repositories/LoanRepository.java:19 | the result holds exactly the stored loans whose owner column equals the argument, unchanged; a null argument matches nothing in a well-formed store |
| CustomerService.RegisterCustomer | src/main/java/com/example/bms/services/CustomerService.java:25-46 | a taken login id fails with no new store; a free login id fails exactly when the account type is missing and succeeds otherwise; the saved row is the form's twelve fields under the next identity, is appended, and keeps login ids unique |
| CustomerService.AuthenticateCustomer | src/main/java/com/example/bms/services/CustomerService.java:48-54 | returns a stored customer whose login id and password equal the supplied ones; with unique login ids, returns one if and only if such a customer exists |
| CustomerService.MergeUpdate | src/main/java/com/example/bms/services/CustomerService.java:61-73 | each of name, email, phone and address takes the supplied value when non-null and keeps the old one otherwise; every other field is kept |
| CustomerService.UpdateCustomerDetails | src/main/java/com/example/bms/services/CustomerService.java:56-79 | null exactly for an unknown id; otherwise the merged row replaces that row only, with account number, PAN, date of birth, login id and password unchanged, and the table stays well formed |
| CustomerService.UpdateIdempotent | src/main/java/com/example/bms/services/CustomerService.java:56-79 | applying the same update twice gives the same store and customer as applying it once |
| CustomerService.GetAllLoanTypes | src/main/java/com/example/bms/services/CustomerService.java:81-93 | exactly five entries, one per loan type in declaration order with distinct names, carrying the rates 15.0, 10.5, 9.0, 12.0 and 9.5 |
| CustomerService.LoanIdFor | src/main/java/com/example/bms/services/CustomerService.java:97 | a loan id is `LOAN` followed by the digits of the clock reading, which read back to it |
| CustomerService.ResolveRate | src/main/java/com/example/bms/services/CustomerService.java:103-110 | with a loan type, a missing or zero rate becomes the type's base rate and any other rate, negative included, is kept; without a type the rate is left alone; with a type the result is never zero |
| CustomerService.ApplyForLoan | src/main/java/com/example/bms/services/CustomerService.java:95-117 | fails when the application has no amount or no product, or the caller is null (NOT NULL columns), and otherwise exactly when the minted id is already on file; a filed loan has the `LOAN` id, the caller as owner, the request's amount and product, the resolved (present) rate, an EMI equal to the computation on that rate, and no other field changed, and the store gains only that loan and stays well formed |
| CustomerService.FiledApplicationUsesAnnuity | src/main/java/com/example/bms/services/CustomerService.java:104-113 | a filed application always has a loan type, so the straight-line branch is never taken: the stored EMI is zero for missing inputs and the annuity otherwise |
| CustomerService.GetCustomerLoans | src/main/java/com/example/bms/services/CustomerService.java:119-121 | the result holds exactly the caller's stored loans; a null caller gets none from a well-formed store |
| CustomerService.GetLoanDetails | src/main/java/com/example/bms/services/CustomerService.java:123-129 | returns the stored loan if and only if it exists and its non-null owner is the caller; a null caller sees nothing |
| CustomerService.LoanDetailsOwnerOnly | src/main/java/com/example/bms/services/CustomerService.java:125 | a loan visible to one customer is invisible to every other |
| CustomerController.IsValidBearerToken | src/main/java/com/example/bms/controllers/CustomerController.java:326-332 | false for a null header and for one without the case-sensitive `Bearer ` prefix; otherwise exactly the validator's verdict, at the current instant, on the text after the prefix |
| CustomerController.ExtractCustomerIdFromToken | src/main/java/com/example/bms/controllers/CustomerController.java:334-337 | for a prefixed header, the subject (possibly null) the utility reads from the text after the prefix |
| CustomerController.GateIgnoresValidatorWithoutPrefix | src/main/java/com/example/bms/controllers/CustomerController.java:327-329 | without the prefix every token utility is refused alike, so the validator is not consulted |
| CustomerController.HeaderRoundTrip | src/main/java/com/example/bms/controllers/CustomerController.java:327-336 | the header a session generates strips back to exactly its token, so the gate and the subject extraction see that token |
| CustomerController.RegisterEndpoint | src/main/java/com/example/bms/controllers/CustomerController.java:43-58 | CREATED with the new store exactly when registration succeeds; otherwise BAD_REQUEST with the stores unchanged |
| CustomerController.IssueSession | src/main/java/com/example/bms/controllers/CustomerController.java:73-86 | the issued session carries the customer's id, name and email and role CUSTOMER, the token as bearer token, is active, stamps login and issue at the current instant and expires 24 hours after issue; it is valid at every instant up to and including expiry when the token is non-empty and at no later instant; the JWT field, credentials and last-activity stamp are left as the request had it |
| CustomerController.LoginEndpoint | src/main/java/com/example/bms/controllers/CustomerController.java:66-110 | OK exactly when the credentials authenticate, with the issued session and its header; otherwise UNAUTHORIZED with the request unchanged and no header |
| CustomerController.LoginHeaderPassesGate | src/main/java/com/example/bms/controllers/CustomerController.java:82-90 | the header handed out at login passes the gate at any instant exactly when the validator accepts the issued token at that instant, and names the subject read from that token |
| CustomerController.UpdateCustomerEndpoint | src/main/java/com/example/bms/controllers/CustomerController.java:119-150 | an invalid header gives UNAUTHORIZED with nothing changed and the service not applied; an unknown id NOT_FOUND with nothing changed; otherwise OK with the updated store |
| CustomerController.UpdateIgnoresTokenSubject | src/main/java/com/example/bms/controllers/CustomerController.java:128-134 | the reply does not depend on whose token it is: any valid token updates any customer id |
| CustomerController.ApplyForLoanEndpoint | src/main/java/com/example/bms/controllers/CustomerController.java:180-213 | an invalid header gives UNAUTHORIZED with no loan stored; a missing amount or product, a token without a subject, or a clash of loan ids, BAD_REQUEST with nothing stored; otherwise CREATED with the loan filed under the token's (non-null) subject, and the reply's loan id, amount, product and rate are all present for the response map |
| CustomerController.GetAppliedLoansEndpoint | src/main/java/com/example/bms/controllers/CustomerController.java:222-249 | OK exactly for a valid header, with the subject's loans; otherwise UNAUTHORIZED; never changes a store |
| CustomerController.GetLoanDetailsEndpoint | src/main/java/com/example/bms/controllers/CustomerController.java:253-285 | OK exactly for a valid header and a loan owned by the token's non-null subject; with a valid header, a missing or foreign loan gives NOT_FOUND, never UNAUTHORIZED; an invalid header UNAUTHORIZED; never changes a store |
| CustomerController.LogoutEndpoint | src/main/java/com/example/bms/controllers/CustomerController.java:293-323 | OK with the token's subject, null included, exactly for a valid header, otherwise UNAUTHORIZED; no store changes |
| CustomerController.InvalidHeaderChangesNothing | src/main/java/com/example/bms/controllers/CustomerController.java:128-132 | a header the gate refuses gets UNAUTHORIZED from every authenticated endpoint, with both stores unchanged |
| CustomerController.LogoutDoesNotRevoke | src/main/java/com/example/bms/controllers/CustomerController.java:300-317 | after a successful logout the stores are unchanged; at the same instant the header is still accepted by logout and by the other endpoints, and at any later instant it is accepted exactly when the token utility alone accepts it |

## Left out

- Loans.CalculateEmi: the non-zero-rate branch is kept symbolic (`Emi.Annuity`); its floating-point evaluation, `setScale(2, HALF_UP)` rounding, and the `NumberFormatException` that a non-finite double raises (for example at a monthly rate of -2 with an even tenure) are not modelled, because they are IEEE-754 double arithmetic.
- Loans.CalculateEmi: the zero-rate test is made on the exact rate; a tiny non-zero `BigDecimal` rate whose double underflows to zero is not modelled, and the straight-line split is an exact real quotient rather than a double.
- Loans.AnnuityExceedsStraightLine: states the instalment formula over exact reals; it is not proved to agree with the double computation.
- Loans.EmiZeroExactly: characterises only the exact-zero results; an annuity, or a straight-line split, whose value is zero or rounds to 0.00 is not identified with them.
- Loans.NewLoan: the three separate clock readings of the constructor are one `now`.
- Loans.SetLoanStatus: the update stamp and the approval or disbursement date, which the source reads from the clock separately, are one `now`.
- CustomerController.IssueSession: the login timestamp, issue time and expiry, read from the clock separately at login, share one `now`, so the lifetime is exactly 24 hours only under that single reading.
- CustomerController.LoginEndpoint: takes the one `now` of its session, for the same reason.
- Calendar month arithmetic (`plusMonths`) is a parameter, because its day-of-month clamping is library behaviour outside this code.
- The token utility `JwtUtil` is not part of this model; signing, validation and subject extraction are arbitrary functions that never throw. An exception raised inside them is not modelled: on `/loans/apply` it would reach that endpoint's BAD_REQUEST catch, on the other endpoints an INTERNAL_SERVER_ERROR catch.
- CustomerService.GetLoanDetails: a stored loan whose owner column is null makes the source throw `NullPointerException`; the model reports it as not found. The NOT NULL owner column rules such a row out of a well-formed store.
- Database constraints: for loans, the NOT NULL amount, type and owner columns (as `NullColumn`) and the loan-id key (as `DuplicateKey`) are enforced, the NOT NULL checks first; the NOT NULL and unique email, account-number and PAN columns of customers are not, and neither is the login-id unique column except through the service's own check.
- The surrogate `id` of a loan is not modelled; saving an application is always an insert keyed by loan id.
- `Customer` nullable text columns other than address, state and country are modelled as always present, and a null request field (such as a null password) is not modelled for registration.
- Null arguments that raise `NullPointerException` (a null amount to `deposit`/`withdraw`, a null stored password) are not modelled.
- Accounts.Deposit: the balance column is nullable, and an account with a null balance throws `NullPointerException` on deposit; the model's balance is always a number.
- Accounts.Withdraw: the same null balance throws on withdraw; not modelled for the same reason.
- The required `Authorization` header: every authenticated endpoint takes it as a plain string, because the framework answers a request without it with 400 before the handler runs; that framework reply is not modelled.
- JSON deserialization of request bodies through the setters, `getCustomerInfo` formatting, the legacy `double` accessors and plain getters/setters without logic are not modelled.
- The unauthenticated `GET /loans/types` endpoint only wraps `CustomerService.GetAllLoanTypes`, and response-body assembly and Swagger annotations are left out as HTTP plumbing.
- Repositories.InsertLoan: the DECIMAL precision and scale of the loan columns are not modelled. `amount`, `monthly_emi` and `outstanding_amount` are (15,2) and `offered_interest_rate` is (5,2), so the source's save fails (BAD_REQUEST on `/loans/apply`) for a rate whose magnitude is 1000 or more after rounding (negative rates are kept, so this includes -1000 and below) or an amount whose magnitude is 10^13 or more after rounding, and the database stores other values rounded to two decimals. The model files exact reals and never fails on magnitude, so `CustomerController.ApplyForLoanEndpoint` answers CREATED for such values and later lookups return them unrounded.
- The INTERNAL_SERVER_ERROR catch paths are reached only by exceptions this model leaves out (a null stored password, customer-table constraint violations, failures inside the token utility, a stored loan with a null owner in the loan lookup). The BAD_REQUEST catch of loan application is modelled: the exceptions the save raises land there, and a filed loan always has the values the response map needs.
- The `LoginRequestRepository`, `AccountRepository` and the other derived queries are not used by the modelled operations.

=== FILE: accounts.dfy ===
/** A bank account and its guarded balance arithmetic. */
module Accounts {
  import opened Wrappers
  import opened Clock

  datatype AccountType = Savings | Current | FixedDeposit | RecurringDeposit

  datatype Account = Account(
    accountNumber: Option<string>,
    balance: real,
    customerId: Option<string>,
    accountType: Option<AccountType>,
    createdAt: Option<Instant>,
    updatedAt: Option<Instant>,
    isActive: bool)

  /** The no-argument constructor: an empty, active account. */
  function NewAccount(now: Instant): (a: Account)
    ensures a.balance == 0.0 && a.isActive
    ensures a.accountNumber.None? && a.customerId.None? && a.accountType.None?
  {
    Account(None, 0.0, None, None, Some(now), Some(now), true)
  }

  /** The three-argument constructor: an empty, active account for a customer. */
  function OpenAccount(accountNumber: string, customerId: string, accountType: AccountType, now: Instant): (a: Account)
    ensures a.balance == 0.0 && a.isActive
    ensures a.accountNumber == Some(accountNumber) && a.customerId == Some(customerId)
    ensures a.accountType == Some(accountType)
  {
    NewAccount(now).(accountNumber := Some(accountNumber), customerId := Some(customerId),
                     accountType := Some(accountType))
  }

  /** `deposit`: a positive amount is added; anything else is ignored. */
  function Deposit(a: Account, amount: real, now: Instant): (r: Account)
    ensures amount > 0.0 ==> r.balance == a.balance + amount && r == a.(balance := r.balance, updatedAt := Some(now))
    ensures amount <= 0.0 ==> r == a
    ensures a.balance >= 0.0 ==> r.balance >= a.balance
  {
    if amount > 0.0 then a.(balance := a.balance + amount, updatedAt := Some(now)) else a
  }

  datatype Withdrawal = Withdrawal(account: Account, succeeded: bool)

  /** `withdraw`: succeeds, and debits, exactly when the amount is positive
      and covered by the balance. */
  function Withdraw(a: Account, amount: real, now: Instant): (r: Withdrawal)
    ensures r.succeeded <==> amount > 0.0 && a.balance >= amount
    ensures r.succeeded ==>
              r.account.balance == a.balance - amount && r.account == a.(balance := r.account.balance, updatedAt := Some(now))
    ensures !r.succeeded ==> r.account == a
    ensures a.balance >= 0.0 ==> 0.0 <= r.account.balance <= a.balance
  {
    if amount > 0.0 && a.balance >= amount then
      Withdrawal(a.(balance := a.balance - amount, updatedAt := Some(now)), true)
    else Withdrawal(a, false)
  }

  /** Depositing an amount and withdrawing it again restores the balance,
      from any balance the account can reach (a non-negative one). */
  lemma DepositThenWithdrawRestores(a: Account, amount: real, t1: Instant, t2: Instant)
    requires amount > 0.0 && a.balance >= 0.0
    ensures Withdraw(Deposit(a, amount, t1), amount, t2).succeeded
    ensures Withdraw(Deposit(a, amount, t1), amount, t2).account == a.(updatedAt := Some(t2))
  {
  }

  datatype Transaction = DepositOf(amount: real, at: Instant) | WithdrawalOf(amount: real, at: Instant)

  /** Runs a sequence of deposits and withdrawals, in order. */
  function Run(a: Account, txs: seq<Transaction>): Account
    decreases |txs|
  {
    if |txs| == 0 then a
    else
      var next := match txs[0]
        case DepositOf(amount, at) => Deposit(a, amount, at)
        case WithdrawalOf(amount, at) => Withdraw(a, amount, at).account;
      Run(next, txs[1..])
  }

  /** No sequence of deposits and withdrawals drives a balance negative. */
  lemma {:induction false} RunKeepsBalanceNonNegative(a: Account, txs: seq<Transaction>)
    requires a.balance >= 0.0
    ensures Run(a, txs).balance >= 0.0
    decreases |txs|
  {
    if |txs| > 0 {
      var next := match txs[0]
        case DepositOf(amount, at) => Deposit(a, amount, at)
        case WithdrawalOf(amount, at) => Withdraw(a, amount, at).account;
      RunKeepsBalanceNonNegative(next, txs[1..]);
    }
  }

  /** Only the balance and the update stamp ever change. */
  lemma {:induction false} RunKeepsIdentity(a: Account, txs: seq<Transaction>)
    ensures var r := Run(a, txs);
      r.accountNumber == a.accountNumber && r.customerId == a.customerId
      && r.accountType == a.accountType && r.isActive == a.isActive && r.createdAt == a.createdAt
    decreases |txs|
  {
    if |txs| > 0 {
      var next := match txs[0]
        case DepositOf(amount, at) => Deposit(a, amount, at)
        case WithdrawalOf(amount, at) => Withdraw(a, amount, at).account;
      RunKeepsIdentity(next, txs[1..]);
    }
  }
}

=== FILE: clock.dfy ===
/** Time as the backend sees it. `LocalDateTime.now()` becomes an explicit
    `now` argument of every operation that reads the clock. */
module Clock {

  /** An instant, in whole seconds since an arbitrary epoch. */
  type Instant = int

  const SecondsPerHour: int := 3600

  /** `LocalDateTime.plusHours`. */
  function PlusHours(t: Instant, hours: int): Instant {
    t + hours * SecondsPerHour
  }

  /** `LocalDateTime.isAfter`: strictly later. */
  predicate IsAfter(a: Instant, b: Instant) {
    a > b
  }

  /** `LocalDateTime.plusMonths` depends on the calendar; it is supplied by the caller. */
  type MonthAdder = (Instant, int) -> Instant
}

=== FILE: customer_controller.dfy ===
/** The HTTP endpoints: the bearer-header gate in front of every
    authenticated operation, and what each endpoint does once past it.
    Response bodies are reduced to the status and the record returned. */
module CustomerController {
  import opened Wrappers
  import opened Clock
  import opened Decimal
  import opened Loans
  import opened Customers
  import opened Sessions
  import opened Repositories
  import opened CustomerService

  /** The token utility. Its source is not part of this model, so signing,
      validation and subject extraction are arbitrary functions; validation
      reads the clock, so it is given the instant it runs at, and a token
      may carry no subject, so extraction may yield null. */
  datatype JwtUtil = JwtUtil(
    generateToken: string -> string,
    validateToken: (string, Instant) -> bool,
    extractUsername: string -> Option<string>)

  datatype HttpStatus = Ok | Created | BadRequest | Unauthorized | NotFound

  /** Everything the endpoints persist. */
  datatype Backend = Backend(customers: CustomerStore, loans: LoanStore)

  /** What an endpoint answers and the state it leaves behind. */
  datatype Reply<T> = Reply(status: HttpStatus, backend: Backend, payload: Option<T>)

  /** Hours a freshly issued session stays live. */
  const TokenLifetimeHours: int := 24

  /** Role recorded for every logged-in customer. */
  const CustomerRole: string := "CUSTOMER"

  /** The Authorization-header gate: a header without the exact "Bearer "
      prefix is refused without consulting the validator; otherwise the
      validator decides on the text after the prefix. */
  function IsValidBearerToken(jwt: JwtUtil, header: Option<string>, now: Instant): (ok: bool)
    ensures header.None? ==> !ok
    ensures header.Some? && !(BearerPrefix <= header.value) ==> !ok
    ensures header.Some? && BearerPrefix <= header.value ==>
              ok == jwt.validateToken(header.value[|BearerPrefix|..], now)
  {
    if header.None? || !(BearerPrefix <= header.value) then false
    else jwt.validateToken(header.value[7..], now)
  }

  /** The gate as the endpoints apply it: the framework always supplies the
      required Authorization header. */
  predicate Admits(jwt: JwtUtil, header: string, now: Instant) {
    IsValidBearerToken(jwt, Some(header), now)
  }

  /** The subject of the token after the 7-character prefix. */
  function ExtractCustomerIdFromToken(jwt: JwtUtil, header: string): (subject: Option<string>)
    requires |header| >= 7
    ensures BearerPrefix <= header ==> subject == jwt.extractUsername(header[|BearerPrefix|..])
  {
    jwt.extractUsername(header[7..])
  }

  /** Without the prefix the validator's verdict is irrelevant: any two
      validators refuse the header. */
  lemma GateIgnoresValidatorWithoutPrefix(jwt1: JwtUtil, jwt2: JwtUtil, header: Option<string>, now: Instant)
    requires header.None? || !(BearerPrefix <= header.value)
    ensures !IsValidBearerToken(jwt1, header, now) && !IsValidBearerToken(jwt2, header, now)
  {
  }

  /** The header a session hands out strips back to its own token, so the
      gate and the subject extraction see exactly that token. */
  lemma HeaderRoundTrip(jwt: JwtUtil, s: LoginRequest, now: Instant)
    requires Present(s.bearerToken)
    ensures GenerateBearerTokenHeader(s).Some?
    ensures var header := GenerateBearerTokenHeader(s).value;
      && header[7..] == s.bearerToken.value
      && Admits(jwt, header, now) == jwt.validateToken(s.bearerToken.value, now)
      && ExtractCustomerIdFromToken(jwt, header) == jwt.extractUsername(s.bearerToken.value)
  {
  }

  // ---- Endpoints ----

  /** POST /register. */
  function RegisterEndpoint(b: Backend, req: RegisterRequest): (r: Reply<Customer>)
    ensures r.status == Created <==> RegisterCustomer(b.customers, req).Success?
    ensures r.status == Created ==>
              r.backend == b.(customers := RegisterCustomer(b.customers, req).value.0)
              && r.payload == Some(RegisterCustomer(b.customers, req).value.1)
    ensures r.status != Created ==> r.status == BadRequest && r.backend == b
  {
    match RegisterCustomer(b.customers, req)
    case Failure(_) => Reply(BadRequest, b, None)
    case Success((st, c)) => Reply(Created, b.(customers := st), Some(c))
  }

  /** The session a successful login records: customer details, the issued
      token as bearer token, active, stamped now and expiring a day later. */
  function IssueSession(req: LoginRequest, c: Customer, token: string, now: Instant): (s: LoginRequest)
    ensures s.customerId == Some(FromNat(c.id)) && s.customerRole == Some(CustomerRole)
    ensures s.customerName == Some(c.name) && s.customerEmail == Some(c.email)
    ensures s.bearerToken == Some(token) && s.isTokenActive
    ensures s.loginTimestamp == Some(now)
    ensures s.tokenIssuedAt == Some(now) && s.tokenExpiresAt == Some(PlusHours(now, TokenLifetimeHours))
    ensures s.jwtToken == req.jwtToken && s.loginId == req.loginId && s.password == req.password
    ensures s.lastActivity == req.lastActivity
    ensures forall t :: t <= PlusHours(now, TokenLifetimeHours) ==> (Sessions.IsValidBearerToken(s, t) <==> token != "")
    ensures forall t :: t > PlusHours(now, TokenLifetimeHours) ==> !Sessions.IsValidBearerToken(s, t)
  {
    var detailed := SetCustomerDetails(req, Some(FromNat(c.id)), Some(c.name), Some(c.email), Some(CustomerRole));
    detailed.(bearerToken := Some(token), isTokenActive := true, loginTimestamp := Some(now),
              tokenIssuedAt := Some(now), tokenExpiresAt := Some(PlusHours(now, TokenLifetimeHours)))
  }

  datatype LoginReply = LoginReply(status: HttpStatus, session: LoginRequest, header: Option<string>)

  /** POST /login: on matching credentials a token is issued for the
      customer's id and returned as an Authorization header. */
  function LoginEndpoint(jwt: JwtUtil, b: Backend, req: LoginRequest, now: Instant): (r: LoginReply)
    ensures r.status == Ok <==> AuthenticateCustomer(b.customers, req).Some?
    ensures r.status != Ok ==> r.status == Unauthorized && r.session == req && r.header.None?
    ensures r.status == Ok ==>
              var c := AuthenticateCustomer(b.customers, req).value;
              && r.session == IssueSession(req, c, jwt.generateToken(FromNat(c.id)), now)
              && r.header == GenerateBearerTokenHeader(r.session)
  {
    match AuthenticateCustomer(b.customers, req)
    case None => LoginReply(Unauthorized, req, None)
    case Some(c) =>
      var s := IssueSession(req, c, jwt.generateToken(FromNat(c.id)), now);
      LoginReply(Ok, s, GenerateBearerTokenHeader(s))
  }

  /** A successful login with a non-empty token hands out a header that the
      gate accepts exactly when the validator accepts the issued token, and
      whose subject is whatever the utility reads from that token. */
  lemma LoginHeaderPassesGate(jwt: JwtUtil, b: Backend, req: LoginRequest, now: Instant, later: Instant)
    requires LoginEndpoint(jwt, b, req, now).status == Ok
    requires LoginEndpoint(jwt, b, req, now).session.bearerToken.value != ""
    ensures var r := LoginEndpoint(jwt, b, req, now);
      && r.header.Some?
      && Admits(jwt, r.header.value, later) == jwt.validateToken(r.session.bearerToken.value, later)
      && ExtractCustomerIdFromToken(jwt, r.header.value) == jwt.extractUsername(r.session.bearerToken.value)
  {
    HeaderRoundTrip(jwt, LoginEndpoint(jwt, b, req, now).session, later);
  }

  /** PUT /customer/{customerId}. */
  function UpdateCustomerEndpoint(jwt: JwtUtil, b: Backend, customerId: int, header: string, u: CustomerUpdate, now: Instant)
    : (r: Reply<Customer>)
    ensures !Admits(jwt, header, now) ==> r == Reply(Unauthorized, b, None)
    ensures Admits(jwt, header, now) && FindById(b.customers, customerId).None? ==> r == Reply(NotFound, b, None)
    ensures Admits(jwt, header, now) && FindById(b.customers, customerId).Some? ==>
              var updated := UpdateCustomerDetails(b.customers, customerId, u).value;
              r == Reply(Ok, b.(customers := updated.0), Some(updated.1))
    ensures r.backend.loans == b.loans
  {
    if !Admits(jwt, header, now) then Reply(Unauthorized, b, None)
    else
      match UpdateCustomerDetails(b.customers, customerId, u)
      case None => Reply(NotFound, b, None)
      case Some((st, c)) => Reply(Ok, b.(customers := st), Some(c))
  }

  /** The update endpoint never looks at whose token it is: two utilities
      that agree on validity give the same reply whatever subjects they read. */
  lemma UpdateIgnoresTokenSubject(jwt1: JwtUtil, jwt2: JwtUtil, b: Backend, customerId: int,
                                  header: string, u: CustomerUpdate, now: Instant)
    requires jwt1.validateToken == jwt2.validateToken
    ensures UpdateCustomerEndpoint(jwt1, b, customerId, header, u, now) == UpdateCustomerEndpoint(jwt2, b, customerId, header, u, now)
  {
  }

  /** POST /loans/apply: the loan is filed under the token's subject; a
      token without a subject leaves the owner column empty and the save
      fails. A created reply carries the id, amount, product and rate of the
      filed loan, none of them missing, so the response map can be built. */
  function ApplyForLoanEndpoint(jwt: JwtUtil, b: Backend, header: string, app: Loan, now: Instant, millis: nat)
    : (r: Reply<Loan>)
    ensures !Admits(jwt, header, now) ==> r == Reply(Unauthorized, b, None)
    ensures Admits(jwt, header, now) ==>
              var applied := ApplyForLoan(b.loans, ExtractCustomerIdFromToken(jwt, header), app, now, millis);
              && (applied.Failure? ==> r == Reply(BadRequest, b, None))
              && (applied.Success? ==> r == Reply(Created, b.(loans := applied.value.0), Some(applied.value.1)))
    ensures r.status == Created <==> Admits(jwt, header, now) && app.amount.Some? && app.loanType.Some?
                                     && ExtractCustomerIdFromToken(jwt, header).Some?
                                     && LoanIdFor(millis) !in b.loans
    ensures r.status == Created ==>
              && r.payload.Some?
              && r.payload.value.customerId == jwt.extractUsername(header[|BearerPrefix|..])
              && r.payload.value.customerId.Some?
              && r.payload.value.loanId.Some? && r.payload.value.amount.Some?
              && r.payload.value.loanType.Some? && r.payload.value.offeredInterestRate.Some?
    ensures r.status != Created ==> r.backend == b && r.payload.None?
    ensures r.backend.customers == b.customers
  {
    if !Admits(jwt, header, now) then Reply(Unauthorized, b, None)
    else
      var customerId := ExtractCustomerIdFromToken(jwt, header);
      match ApplyForLoan(b.loans, customerId, app, now, millis)
      case Failure(_) => Reply(BadRequest, b, None)
      case Success((filed, l)) => Reply(Created, b.(loans := filed), Some(l))
  }

  /** GET /loans/applied: the token subject's loans. */
  function GetAppliedLoansEndpoint(jwt: JwtUtil, b: Backend, header: string, now: Instant): (r: Reply<map<string, Loan>>)
    ensures r.backend == b
    ensures r.status == Ok <==> Admits(jwt, header, now)
    ensures r.status != Ok ==> r.status == Unauthorized && r.payload.None?
    ensures r.status == Ok ==>
              r.payload == Some(GetCustomerLoans(b.loans, ExtractCustomerIdFromToken(jwt, header)))
  {
    if !Admits(jwt, header, now) then Reply(Unauthorized, b, None)
    else Reply(Ok, b, Some(GetCustomerLoans(b.loans, ExtractCustomerIdFromToken(jwt, header))))
  }

  /** GET /loans/{loanId}: only the owner named by the token sees the loan. */
  function GetLoanDetailsEndpoint(jwt: JwtUtil, b: Backend, loanId: string, header: string, now: Instant): (r: Reply<Loan>)
    ensures r.backend == b
    ensures !Admits(jwt, header, now) ==> r.status == Unauthorized && r.payload.None?
    ensures r.status == Ok <==>
              Admits(jwt, header, now) && loanId in b.loans && b.loans[loanId].customerId.Some?
              && b.loans[loanId].customerId == ExtractCustomerIdFromToken(jwt, header)
    ensures Admits(jwt, header, now)
            && !(loanId in b.loans && b.loans[loanId].customerId.Some?
                 && b.loans[loanId].customerId == ExtractCustomerIdFromToken(jwt, header)) ==>
              r == Reply(NotFound, b, None)
    ensures r.status == Ok ==> r.payload == Some(b.loans[loanId])
    ensures r.status != Ok ==> r.payload.None? && (r.status == Unauthorized || r.status == NotFound)
  {
    if !Admits(jwt, header, now) then Reply(Unauthorized, b, None)
    else
      match GetLoanDetails(b.loans, ExtractCustomerIdFromToken(jwt, header), loanId)
      case Some(l) => Reply(Ok, b, Some(l))
      case None => Reply(NotFound, b, None)
  }

  /** POST /logout: answers with the token's subject, null included, and
      revokes nothing. */
  function LogoutEndpoint(jwt: JwtUtil, b: Backend, header: string, now: Instant): (r: Reply<Option<string>>)
    ensures r.backend == b
    ensures r.status == Ok <==> Admits(jwt, header, now)
    ensures r.status != Ok ==> r.status == Unauthorized && r.payload.None?
    ensures r.status == Ok ==> r.payload == Some(ExtractCustomerIdFromToken(jwt, header))
  {
    if !Admits(jwt, header, now) then Reply(Unauthorized, b, None)
    else Reply(Ok, b, Some(ExtractCustomerIdFromToken(jwt, header)))
  }

  /** A header refused by the gate is refused by every authenticated
      endpoint, and none of them touches the stores. */
  lemma InvalidHeaderChangesNothing(jwt: JwtUtil, b: Backend, header: string, now: Instant, customerId: int,
                                    u: CustomerUpdate, app: Loan, millis: nat, loanId: string)
    requires !Admits(jwt, header, now)
    ensures UpdateCustomerEndpoint(jwt, b, customerId, header, u, now) == Reply(Unauthorized, b, None)
    ensures ApplyForLoanEndpoint(jwt, b, header, app, now, millis) == Reply(Unauthorized, b, None)
    ensures GetAppliedLoansEndpoint(jwt, b, header, now) == Reply(Unauthorized, b, None)
    ensures GetLoanDetailsEndpoint(jwt, b, loanId, header, now) == Reply(Unauthorized, b, None)
    ensures LogoutEndpoint(jwt, b, header, now) == Reply(Unauthorized, b, None)
  {
  }

  /** Logging out does not end the session: at the instant of the logout
      the same header is still accepted, by logout and by every other
      endpoint, and at any later instant it is accepted exactly when the
      token utility alone accepts it. */
  lemma LogoutDoesNotRevoke(jwt: JwtUtil, b: Backend, header: string, loanId: string, now: Instant)
    requires LogoutEndpoint(jwt, b, header, now).status == Ok
    ensures var after := LogoutEndpoint(jwt, b, header, now).backend;
      && after == b
      && LogoutEndpoint(jwt, after, header, now).status == Ok
      && GetAppliedLoansEndpoint(jwt, after, header, now).status == Ok
      && GetLoanDetailsEndpoint(jwt, after, loanId, header, now).status != Unauthorized
      && (forall t :: GetAppliedLoansEndpoint(jwt, after, header, t).status == Ok <==>
                        jwt.validateToken(header[|BearerPrefix|..], t))
  {
  }
}

=== FILE: customer_service.dfy ===
/** The business rules of the banking backend: registration, login check,
    partial customer update, the loan catalogue, loan application with
    rate resolution, and owner-checked loan lookup. */
module CustomerService {
  import opened Wrappers
  import opened Clock
  import opened Decimal
  import opened Loans
  import opened Customers
  import opened Sessions
  import opened Repositories

  /** The exceptions the service raises, its own and the store's. */
  datatype ServiceError = LoginIdTaken | MissingAccountType | MissingLoanColumn | DuplicateLoanId

  /** `registerCustomer`: refuses a taken login id, then copies the form into
      a new row. */
  function RegisterCustomer(st: CustomerStore, req: RegisterRequest): (r: Result<(CustomerStore, Customer), ServiceError>)
    ensures FindByLoginId(st.rows, req.loginId).Some? ==> r == Failure(LoginIdTaken)
    ensures FindByLoginId(st.rows, req.loginId).None? && req.accountType.None? ==> r == Failure(MissingAccountType)
    ensures FindByLoginId(st.rows, req.loginId).None? && req.accountType.Some? ==> r.Success?
    ensures r.Success? ==>
              && (forall i :: 0 <= i < |st.rows| ==> st.rows[i].loginId != req.loginId)
              && r.value.1 == Customer(|st.rows| + 1, req.name, req.accountNumber, req.email, req.phoneNumber,
                                       req.address, req.state, req.country, req.panNumber, req.dob,
                                       req.accountType.value, req.loginId, req.password)
              && r.value.0.rows == st.rows + [r.value.1]
    ensures r.Success? && ValidCustomerStore(st) ==>
              ValidCustomerStore(r.value.0) && r.value.1.id == |st.rows| + 1
  {
    if FindByLoginId(st.rows, req.loginId).Some? then Failure(LoginIdTaken)
    else if req.accountType.None? then Failure(MissingAccountType)
    else
      var c := Customer(0, req.name, req.accountNumber, req.email, req.phoneNumber, req.address,
                        req.state, req.country, req.panNumber, req.dob, req.accountType.value,
                        req.loginId, req.password);
      Success(InsertCustomer(st, c))
  }

  /** `authenticateCustomer`: the customer with that login id, if the
      password matches exactly. */
  function AuthenticateCustomer(st: CustomerStore, req: LoginRequest): (r: Option<Customer>)
    ensures r.Some? ==>
              r.value in st.rows && req.loginId == Some(r.value.loginId) && req.password == Some(r.value.password)
    ensures LoginIdsUnique(st.rows) && req.loginId.Some? ==>
              (r.Some? <==> exists i :: 0 <= i < |st.rows| && st.rows[i].loginId == req.loginId.value
                                          && req.password == Some(st.rows[i].password))
  {
    match req.loginId
    case None => None
    case Some(loginId) =>
      var found := FindByLoginId(st.rows, loginId);
      if found.Some? && req.password == Some(found.value.password) then found else None
  }

  /** Overwrites the name, email, phone number and address that the update supplies. */
  function MergeUpdate(c: Customer, u: CustomerUpdate): (r: Customer)
    ensures r.name == (if u.name.Some? then u.name.value else c.name)
    ensures r.email == (if u.email.Some? then u.email.value else c.email)
    ensures r.phoneNumber == (if u.phoneNumber.Some? then u.phoneNumber.value else c.phoneNumber)
    ensures r.address == (if u.address.Some? then u.address else c.address)
    ensures r == c.(name := r.name, email := r.email, phoneNumber := r.phoneNumber, address := r.address)
  {
    var named := if u.name.Some? then c.(name := u.name.value) else c;
    var mailed := if u.email.Some? then named.(email := u.email.value) else named;
    var phoned := if u.phoneNumber.Some? then mailed.(phoneNumber := u.phoneNumber.value) else mailed;
    if u.address.Some? then phoned.(address := u.address) else phoned
  }

  /** `updateCustomerDetails`: null for an unknown id; otherwise the merged
      row is written back. Account number, PAN, date of birth, login id and
      password never change. */
  function UpdateCustomerDetails(st: CustomerStore, customerId: int, u: CustomerUpdate): (r: Option<(CustomerStore, Customer)>)
    ensures r.None? <==> FindById(st, customerId).None?
    ensures r.Some? ==>
              var prior := st.rows[customerId - 1];
              && r.value.1 == MergeUpdate(prior, u)
              && r.value.1.accountNumber == prior.accountNumber && r.value.1.panNumber == prior.panNumber
              && r.value.1.dob == prior.dob && r.value.1.loginId == prior.loginId && r.value.1.password == prior.password
              && r.value.0.rows == st.rows[customerId - 1 := r.value.1]
    ensures r.Some? && ValidCustomerStore(st) ==> ValidCustomerStore(r.value.0)
  {
    match FindById(st, customerId)
    case None => None
    case Some(existing) =>
      var merged := MergeUpdate(existing, u);
      Some((UpdateCustomerRow(st, customerId, merged), merged))
  }

  /** Sending the same update twice leaves the same customer as sending it once. */
  lemma UpdateIdempotent(st: CustomerStore, customerId: int, u: CustomerUpdate)
    requires UpdateCustomerDetails(st, customerId, u).Some?
    ensures var once := UpdateCustomerDetails(st, customerId, u).value;
      UpdateCustomerDetails(once.0, customerId, u) == Some(once)
  {
    var once := UpdateCustomerDetails(st, customerId, u).value;
    assert once.0.rows[customerId - 1] == once.1;
    assert MergeUpdate(once.1, u) == once.1;
    assert once.0.rows[customerId - 1 := once.1] == once.0.rows;
  }

  // ---- Loan catalogue ----

  datatype LoanTypeInfo = LoanTypeInfo(typeName: string, baseInterestRate: real, description: string)

  function Description(t: LoanType): string {
    match t
    case PersonalLoan => "Personal loans for individual financial needs"
    case CarLoan => "Loans for purchasing vehicles"
    case HomeLoan => "Loans for purchasing or constructing homes"
    case GoldLoan => "Loans against gold collateral"
    case EducationLoan => "Loans for educational expenses"
  }

  function InfoOf(t: LoanType): LoanTypeInfo {
    LoanTypeInfo(Name(t), BaseInterestRate(t), Description(t))
  }

  /** `getAllLoanTypes`: one entry per product, in declaration order, each
      with the product's base rate. */
  method GetAllLoanTypes() returns (infos: seq<LoanTypeInfo>)
    ensures |infos| == |LoanTypeValues| == 5
    ensures forall i :: 0 <= i < |infos| ==> infos[i] == InfoOf(LoanTypeValues[i])
    ensures forall t :: infos[Ordinal(t)].typeName == Name(t) && infos[Ordinal(t)].baseInterestRate == BaseInterestRate(t)
    ensures forall i, j :: 0 <= i < j < |infos| ==> infos[i].typeName != infos[j].typeName
    ensures infos[0].baseInterestRate == 15.0 && infos[1].baseInterestRate == 10.5
    ensures infos[2].baseInterestRate == 9.0 && infos[3].baseInterestRate == 12.0
    ensures infos[4].baseInterestRate == 9.5
  {
    infos := [];
    for i := 0 to |LoanTypeValues|
      invariant |infos| == i
      invariant forall j :: 0 <= j < i ==> infos[j] == InfoOf(LoanTypeValues[j])
    {
      infos := infos + [InfoOf(LoanTypeValues[i])];
    }
  }

  // ---- Loan application ----

  const LoanIdPrefix: string := "LOAN"

  /** The loan id minted from a clock reading in milliseconds. */
  function LoanIdFor(millis: nat): (id: string)
    ensures LoanIdPrefix <= id
    ensures Decimal.IsDigits(id[|LoanIdPrefix|..]) && ToNat(id[|LoanIdPrefix|..]) == millis
  {
    ToNatFromNat(millis);
    LoanIdPrefix + FromNat(millis)
  }

  /** Loans applied for at different milliseconds get different ids. */
  lemma LoanIdsDistinct(m1: nat, m2: nat)
    requires m1 != m2
    ensures LoanIdFor(m1) != LoanIdFor(m2)
  {
  }

  /** The rate an application ends up with: a missing or zero rate falls
      back to the product's base rate; any other rate, negative included,
      is kept; without a product nothing is resolved. */
  function ResolveRate(loanType: Option<LoanType>, requested: Option<real>): (rate: Option<real>)
    ensures loanType.Some? && (requested.None? || requested.value == 0.0) ==>
              rate == Some(BaseInterestRate(loanType.value))
    ensures loanType.None? || (requested.Some? && requested.value != 0.0) ==> rate == requested
    ensures loanType.Some? ==> rate.Some? && rate.value != 0.0
  {
    if loanType.Some? && (requested.None? || requested.value == 0.0) then Some(BaseInterestRate(loanType.value))
    else requested
  }

  /** The fields `applyForLoan` writes. */
  predicate OnlyApplicationFieldsDiffer(app: Loan, l: Loan) {
    l == app.(loanId := l.loanId, customerId := l.customerId, offeredInterestRate := l.offeredInterestRate,
              monthlyEmi := l.monthlyEmi, updatedAt := l.updatedAt)
  }

  /** `applyForLoan`: mints the id, binds the owner, resolves the rate,
      prices the instalment on the resolved rate and files the loan. */
  function ApplyForLoan(loans: LoanStore, customerId: Option<string>, app: Loan, now: Instant, millis: nat)
    : (r: Result<(LoanStore, Loan), ServiceError>)
    ensures app.amount.None? || app.loanType.None? || customerId.None? ==> r == Failure(MissingLoanColumn)
    ensures app.amount.Some? && app.loanType.Some? && customerId.Some? ==>
              (r.Failure? <==> LoanIdFor(millis) in loans) && (r.Failure? ==> r.error == DuplicateLoanId)
    ensures r.Success? ==>
              var l := r.value.1;
              && l.amount == app.amount && l.loanType == app.loanType && l.offeredInterestRate.Some?
              && l.loanId == Some(LoanIdFor(millis)) && LoanIdPrefix <= l.loanId.value
              && l.customerId == customerId
              && l.offeredInterestRate == ResolveRate(app.loanType, app.offeredInterestRate)
              && l.monthlyEmi == Some(CalculateEmi(l))
              && l.updatedAt == Some(now)
              && OnlyApplicationFieldsDiffer(app, l)
              && r.value.0 == loans[l.loanId.value := l]
    ensures r.Success? && ValidLoanStore(loans) ==> ValidLoanStore(r.value.0)
  {
    var withOwner := app.(loanId := Some(LoanIdFor(millis)), customerId := customerId);
    var rated :=
      if app.loanType.Some? && (app.offeredInterestRate.None? || app.offeredInterestRate.value == 0.0) then
        withOwner.(offeredInterestRate := Some(BaseInterestRate(app.loanType.value)), updatedAt := Some(now))
      else withOwner;
    var priced := UpdateEmi(rated, now);
    match InsertLoan(loans, priced)
    case Failure(NullColumn) => Failure(MissingLoanColumn)
    case Failure(DuplicateKey) => Failure(DuplicateLoanId)
    case Success(filed) => Success((filed, priced))
  }

  /** A filed application always names a product, so its resolved rate is
      never zero and the stored instalment is never the straight-line split:
      it is zero for missing inputs and the annuity otherwise. */
  lemma FiledApplicationUsesAnnuity(loans: LoanStore, customerId: Option<string>, app: Loan, now: Instant, millis: nat)
    requires ApplyForLoan(loans, customerId, app, now, millis).Success?
    ensures var l := ApplyForLoan(loans, customerId, app, now, millis).value.1;
      l.monthlyEmi == Some(if EmiInputsPresent(l) then CalculateEmi(l) else Exact(0.0))
      && (EmiInputsPresent(l) ==> CalculateEmi(l).Annuity?)
  {
  }

  /** `getCustomerLoans`: a null caller owns nothing in a well-formed store. */
  function GetCustomerLoans(loans: LoanStore, customerId: Option<string>): (r: map<string, Loan>)
    ensures forall k :: k in r ==> k in loans && r[k] == loans[k] && r[k].customerId == customerId
    ensures forall k :: k in loans && loans[k].customerId == customerId ==> k in r
    ensures ValidLoanStore(loans) && customerId.None? ==> r == map[]
  {
    FindByCustomerId(loans, customerId)
  }

  /** `getLoanDetails`: the loan only when it exists and its (non-null)
      owner is the caller; another customer's loan is reported exactly like
      a missing one, and a null caller sees nothing. */
  function GetLoanDetails(loans: LoanStore, customerId: Option<string>, loanId: string): (r: Option<Loan>)
    ensures r.Some? <==> loanId in loans && loans[loanId].customerId.Some? && loans[loanId].customerId == customerId
    ensures r.Some? ==> r.value == loans[loanId]
    ensures customerId.None? ==> r.None?
  {
    match FindByLoanId(loans, loanId)
    case Some(l) => if l.customerId.Some? && l.customerId == customerId then Some(l) else None
    case None => None
  }

  /** The lookup never discloses a loan across owners. */
  lemma LoanDetailsOwnerOnly(loans: LoanStore, c1: Option<string>, c2: Option<string>, loanId: string)
    requires c1 != c2 && GetLoanDetails(loans, c1, loanId).Some?
    ensures GetLoanDetails(loans, c2, loanId).None?
  {
  }
}

=== FILE: customers.dfy ===
/** The customer record, the registration form and the partial update a
    client may send. */
module Customers {
  import opened Wrappers
  import opened Accounts

  /** A customer row; `id` is the key the store assigns. */
  datatype Customer = Customer(
    id: nat,
    name: string,
    accountNumber: string,
    email: string,
    phoneNumber: string,
    address: Option<string>,
    state: Option<string>,
    country: Option<string>,
    panNumber: string,
    dob: string,
    accountType: AccountType,
    loginId: string,
    password: string)

  /** The registration form. A missing account type cannot be converted. */
  datatype RegisterRequest = RegisterRequest(
    name: string,
    accountNumber: string,
    email: string,
    phoneNumber: string,
    address: Option<string>,
    state: Option<string>,
    country: Option<string>,
    panNumber: string,
    dob: string,
    accountType: Option<AccountType>,
    loginId: string,
    password: string)

  /** The fields of an update body the backend looks at; null means "keep". */
  datatype CustomerUpdate = CustomerUpdate(
    name: Option<string>,
    email: Option<string>,
    phoneNumber: Option<string>,
    address: Option<string>)
}

=== FILE: decimal.dfy ===
/** Decimal rendering of natural numbers, as `Long.toString` does for the
    non-negative values the backend renders (customer ids, clock readings). */
module Decimal {

  predicate IsDigit(c: char) {
    '0' <= c <= '9'
  }

  predicate IsDigits(s: string) {
    forall i :: 0 <= i < |s| ==> IsDigit(s[i])
  }

  function DigitChar(d: nat): (c: char)
    requires d < 10
    ensures IsDigit(c)
    ensures c as int - '0' as int == d
  {
    ('0' as int + d) as char
  }

  function DigitValue(c: char): (d: nat)
    requires IsDigit(c)
    ensures d < 10
  {
    c as int - '0' as int
  }

  /** The canonical decimal form of `n`: non-empty, digits only, and a
      leading zero only for zero itself. */
  function FromNat(n: nat): (s: string)
    ensures |s| > 0
    ensures IsDigits(s)
    ensures s[0] == '0' <==> n == 0
    ensures n == 0 ==> |s| == 1
    decreases n
  {
    if n < 10 then [DigitChar(n)] else FromNat(n / 10) + [DigitChar(n % 10)]
  }

  /** Reads a digit string back as a number. */
  function ToNat(s: string): nat
    requires IsDigits(s)
    decreases |s|
  {
    if |s| == 0 then 0 else ToNat(s[..|s| - 1]) * 10 + DigitValue(s[|s| - 1])
  }

  /** Reading back a rendered number gives the number. */
  lemma {:induction false} ToNatFromNat(n: nat)
    ensures ToNat(FromNat(n)) == n
    decreases n
  {
    if n >= 10 {
      var s := FromNat(n);
      var prefix := FromNat(n / 10);
      assert s == prefix + [DigitChar(n % 10)];
      assert s[..|s| - 1] == prefix;
      ToNatFromNat(n / 10);
    }
  }

  /** Distinct numbers render to distinct strings. */
  lemma FromNatInjective(m: nat, n: nat)
    ensures FromNat(m) == FromNat(n) ==> m == n
  {
    ToNatFromNat(m);
    ToNatFromNat(n);
  }
}

=== FILE: loans.dfy ===
/** The loan record: its fixed base-rate table, the status setter with
    set-once side effects, the tenure setter that derives the maturity date,
    and the guard structure of the monthly-instalment (EMI) computation. */
module Loans {
  import opened Wrappers
  import opened Clock

  /** Loan products, in declaration order. */
  datatype LoanType = PersonalLoan | CarLoan | HomeLoan | GoldLoan | EducationLoan

  /** `LoanType.values()`. */
  const LoanTypeValues: seq<LoanType> := [PersonalLoan, CarLoan, HomeLoan, GoldLoan, EducationLoan]

  /** The fixed annual base rate of each product, in percent. */
  function BaseInterestRate(t: LoanType): real {
    match t
    case PersonalLoan => 15.0
    case CarLoan => 10.5
    case HomeLoan => 9.0
    case GoldLoan => 12.0
    case EducationLoan => 9.5
  }

  /** `LoanType.ordinal()`: the position of `t` in `LoanTypeValues`. */
  function Ordinal(t: LoanType): (i: nat)
    ensures i < |LoanTypeValues| && LoanTypeValues[i] == t
  {
    match t
    case PersonalLoan => 0
    case CarLoan => 1
    case HomeLoan => 2
    case GoldLoan => 3
    case EducationLoan => 4
  }

  /** `LoanType.name()`. */
  function Name(t: LoanType): string {
    match t
    case PersonalLoan => "PERSONAL_LOAN"
    case CarLoan => "CAR_LOAN"
    case HomeLoan => "HOME_LOAN"
    case GoldLoan => "GOLD_LOAN"
    case EducationLoan => "EDUCATION_LOAN"
  }

  datatype LoanStatus = Pending | Approved | Rejected | Disbursed | Closed

  /** A monthly instalment as the backend stores it. `Exact` is a value
      computed without rounding (zero, or the straight-line split);
      `Annuity` stands for the compound-interest formula evaluated in
      floating point and rounded half-up to two decimals, which this model
      does not evaluate. */
  datatype Emi =
    | Exact(value: real)
    | Annuity(principal: real, monthlyRate: real, months: int)

  /** A loan row. Every nullable column is an `Option`. */
  datatype Loan = Loan(
    loanId: Option<string>,
    amount: Option<real>,
    loanType: Option<LoanType>,
    offeredInterestRate: Option<real>,
    customerId: Option<string>,
    loanStatus: Option<LoanStatus>,
    tenureMonths: Option<int>,
    purpose: Option<string>,
    monthlyEmi: Option<Emi>,
    applicationDate: Option<Instant>,
    approvalDate: Option<Instant>,
    disbursementDate: Option<Instant>,
    maturityDate: Option<Instant>,
    outstandingAmount: Option<real>,
    createdAt: Option<Instant>,
    updatedAt: Option<Instant>)

  /** The no-argument constructor. */
  function NewLoan(now: Instant): (l: Loan)
    ensures l.loanStatus == Some(Pending)
    ensures l.applicationDate == Some(now) && l.createdAt == Some(now) && l.updatedAt == Some(now)
    ensures l.approvalDate.None? && l.disbursementDate.None? && l.maturityDate.None?
    ensures l.outstandingAmount.None? && l.monthlyEmi.None?
  {
    Loan(None, None, None, None, None, Some(Pending), None, None, None,
         Some(now), None, None, None, None, Some(now), Some(now))
  }

  /** `getBaseInterestRate`: the product's base rate, or zero without a product. */
  function GetBaseInterestRate(l: Loan): (rate: real)
    ensures l.loanType.None? ==> rate == 0.0
    ensures l.loanType.Some? ==> rate > 0.0 && rate == BaseInterestRate(l.loanType.value)
  {
    match l.loanType
    case None => 0.0
    case Some(t) => BaseInterestRate(t)
  }

  /** The fields a status change may write. */
  predicate OnlyStatusFieldsDiffer(l: Loan, r: Loan) {
    r == l.(loanStatus := r.loanStatus, updatedAt := r.updatedAt, approvalDate := r.approvalDate,
            disbursementDate := r.disbursementDate, outstandingAmount := r.outstandingAmount)
  }

  /** `setLoanStatus`: any status may follow any status. Entering APPROVED
      stamps the approval date and entering DISBURSED stamps the disbursement
      date and opens the outstanding balance, each only the first time. */
  function SetLoanStatus(l: Loan, status: Option<LoanStatus>, now: Instant): (r: Loan)
    ensures r.loanStatus == status && r.updatedAt == Some(now)
    ensures OnlyStatusFieldsDiffer(l, r)
    ensures l.approvalDate.Some? ==> r.approvalDate == l.approvalDate
    ensures l.approvalDate.None? ==> r.approvalDate == (if status == Some(Approved) then Some(now) else None)
    ensures l.disbursementDate.Some? ==>
              r.disbursementDate == l.disbursementDate && r.outstandingAmount == l.outstandingAmount
    ensures l.disbursementDate.None? && status == Some(Disbursed) ==>
              r.disbursementDate == Some(now) && r.outstandingAmount == l.amount
    ensures l.disbursementDate.None? && status != Some(Disbursed) ==>
              r.disbursementDate.None? && r.outstandingAmount == l.outstandingAmount
  {
    var touched := l.(loanStatus := status, updatedAt := Some(now));
    var approved :=
      if status == Some(Approved) && touched.approvalDate.None? then touched.(approvalDate := Some(now))
      else touched;
    if status == Some(Disbursed) && approved.disbursementDate.None? then
      approved.(disbursementDate := Some(now), outstandingAmount := approved.amount)
    else approved
  }

  /** `setTenureMonths`: records the tenure and, once the loan is disbursed,
      derives the maturity date from the disbursement date. */
  function SetTenureMonths(l: Loan, tenure: Option<int>, now: Instant, addMonths: MonthAdder): (r: Loan)
    ensures r.tenureMonths == tenure && r.updatedAt == Some(now)
    ensures l.disbursementDate.Some? && tenure.Some? ==>
              r.maturityDate == Some(addMonths(l.disbursementDate.value, tenure.value))
    ensures l.disbursementDate.None? || tenure.None? ==> r.maturityDate == l.maturityDate
    ensures r == l.(tenureMonths := r.tenureMonths, updatedAt := r.updatedAt, maturityDate := r.maturityDate)
  {
    var touched := l.(tenureMonths := tenure, updatedAt := Some(now));
    if touched.disbursementDate.Some? && tenure.Some? then
      touched.(maturityDate := Some(addMonths(touched.disbursementDate.value, tenure.value)))
    else touched
  }

  /** The inputs `calculateEmi` needs before it computes anything. */
  predicate EmiInputsPresent(l: Loan) {
    && l.amount.Some?
    && l.offeredInterestRate.Some?
    && l.tenureMonths.Some?
    && l.tenureMonths.value > 0
  }

  /** An annual percentage rate as a monthly fraction. */
  function MonthlyRate(annualPercent: real): real {
    annualPercent / 12.0 / 100.0
  }

  /** `calculateEmi`: zero without amount, rate or a positive tenure; the
      straight-line split, unrounded, at a zero rate; otherwise the annuity. */
  function CalculateEmi(l: Loan): (emi: Emi)
    ensures !EmiInputsPresent(l) ==> emi == Exact(0.0)
    ensures EmiInputsPresent(l) && l.offeredInterestRate.value == 0.0 ==>
              emi.Exact? && emi.value * l.tenureMonths.value as real == l.amount.value
    ensures EmiInputsPresent(l) && l.offeredInterestRate.value != 0.0 ==>
              emi.Annuity? && emi.principal == l.amount.value && emi.months == l.tenureMonths.value
              && emi.monthlyRate * 1200.0 == l.offeredInterestRate.value
  {
    if EmiInputsPresent(l) then
      var principal := l.amount.value;
      var monthlyRate := MonthlyRate(l.offeredInterestRate.value);
      if monthlyRate == 0.0 then Exact(principal / l.tenureMonths.value as real)
      else Annuity(principal, monthlyRate, l.tenureMonths.value)
    else Exact(0.0)
  }

  /** `updateEmi`: stores the current instalment; nothing else but the touch changes. */
  function UpdateEmi(l: Loan, now: Instant): (r: Loan)
    ensures r.monthlyEmi == Some(CalculateEmi(l)) && r.updatedAt == Some(now)
    ensures r == l.(monthlyEmi := r.monthlyEmi, updatedAt := r.updatedAt)
    ensures CalculateEmi(r) == CalculateEmi(l)
  {
    l.(monthlyEmi := Some(CalculateEmi(l)), updatedAt := Some(now))
  }

  /** The computation takes one of its two exact-zero exits (the early zero
      return, or the zero-rate split of a zero principal) exactly when an
      input is missing, the tenure is not positive, or rate and principal
      are both zero. An annuity that evaluates or rounds to zero is not one
      of these exits. */
  lemma EmiZeroExactly(l: Loan)
    ensures CalculateEmi(l) == Exact(0.0) <==>
              !EmiInputsPresent(l) || (l.offeredInterestRate.value == 0.0 && l.amount.value == 0.0)
  {
    if EmiInputsPresent(l) && l.offeredInterestRate.value == 0.0 {
      var n := l.tenureMonths.value as real;
      assert CalculateEmi(l).value * n == l.amount.value;
    }
  }

  // ---- Histories of status changes ----

  datatype StatusChange = StatusChange(status: Option<LoanStatus>, at: Instant)

  /** Applies status changes in order. */
  function ApplyStatusChanges(l: Loan, changes: seq<StatusChange>): Loan
    decreases |changes|
  {
    if |changes| == 0 then l
    else ApplyStatusChanges(SetLoanStatus(l, changes[0].status, changes[0].at), changes[1..])
  }

  /** When `target` is first entered in `changes`, if ever. */
  function FirstEntry(changes: seq<StatusChange>, target: LoanStatus): (at: Option<Instant>)
    ensures at.Some? <==> exists i :: 0 <= i < |changes| && changes[i].status == Some(target)
    decreases |changes|
  {
    if |changes| == 0 then None
    else if changes[0].status == Some(target) then Some(changes[0].at)
    else
      var rest := FirstEntry(changes[1..], target);
      assert forall i :: 1 <= i < |changes| ==> changes[i] == changes[1..][i - 1];
      rest
  }

  /** The approval date is the instant of the first APPROVED, and never moves afterwards. */
  lemma {:induction false} ApprovalDateIsFirstApproval(l: Loan, changes: seq<StatusChange>)
    ensures ApplyStatusChanges(l, changes).approvalDate ==
              if l.approvalDate.Some? then l.approvalDate else FirstEntry(changes, Approved)
    decreases |changes|
  {
    if |changes| > 0 {
      ApprovalDateIsFirstApproval(SetLoanStatus(l, changes[0].status, changes[0].at), changes[1..]);
    }
  }

  /** The disbursement date is the instant of the first DISBURSED; the
      outstanding balance is opened at the amount then and a later
      DISBURSED does not reset it. */
  lemma {:induction false} DisbursementIsFirstDisbursal(l: Loan, changes: seq<StatusChange>)
    ensures var r := ApplyStatusChanges(l, changes);
      && r.amount == l.amount
      && r.maturityDate == l.maturityDate
      && r.disbursementDate == (if l.disbursementDate.Some? then l.disbursementDate else FirstEntry(changes, Disbursed))
      && r.outstandingAmount ==
           (if l.disbursementDate.None? && FirstEntry(changes, Disbursed).Some? then l.amount else l.outstandingAmount)
    decreases |changes|
  {
    if |changes| > 0 {
      DisbursementIsFirstDisbursal(SetLoanStatus(l, changes[0].status, changes[0].at), changes[1..]);
    }
  }

  /** After any non-empty history the status is the last one requested. */
  lemma {:induction false} LastStatusWins(l: Loan, changes: seq<StatusChange>)
    requires |changes| > 0
    ensures ApplyStatusChanges(l, changes).loanStatus == changes[|changes| - 1].status
    decreases |changes|
  {
    if |changes| > 1 {
      LastStatusWins(SetLoanStatus(l, changes[0].status, changes[0].at), changes[1..]);
    }
  }

  /** Repeating a status change only moves the update stamp. */
  lemma SetLoanStatusIdempotent(l: Loan, status: Option<LoanStatus>, t1: Instant, t2: Instant)
    ensures SetLoanStatus(SetLoanStatus(l, status, t1), status, t2) ==
              SetLoanStatus(l, status, t1).(updatedAt := Some(t2))
  {
  }

  /** Of two tenure changes after disbursement, the last one decides the maturity date. */
  lemma TenureLastCallWins(l: Loan, t1: Option<int>, t2: int, n1: Instant, n2: Instant, addMonths: MonthAdder)
    requires l.disbursementDate.Some?
    ensures SetTenureMonths(SetTenureMonths(l, t1, n1, addMonths), Some(t2), n2, addMonths).maturityDate ==
              Some(addMonths(l.disbursementDate.value, t2))
  {
  }

  /** Disbursing does not derive the maturity date; the next tenure change does,
      from the disbursement instant. */
  lemma MaturityFollowsDisbursal(l: Loan, d: Instant, t: int, now: Instant, addMonths: MonthAdder)
    requires l.disbursementDate.None?
    ensures SetLoanStatus(l, Some(Disbursed), d).maturityDate == l.maturityDate
    ensures SetTenureMonths(SetLoanStatus(l, Some(Disbursed), d), Some(t), now, addMonths).maturityDate ==
              Some(addMonths(d, t))
  {
  }

  // ---- The annuity over the reals ----

  function Pow(x: real, n: nat): real
    decreases n
  {
    if n == 0 then 1.0 else x * Pow(x, n - 1)
  }

  /** The instalment formula of `calculateEmi` over exact reals, before any
      rounding: P·r·(1+r)^n / ((1+r)^n − 1); undefined when the denominator
      vanishes. */
  function AnnuityPayment(principal: real, monthlyRate: real, months: nat): Option<real> {
    var growth := Pow(1.0 + monthlyRate, months);
    if growth - 1.0 == 0.0 then None
    else Some(principal * monthlyRate * growth / (growth - 1.0))
  }

  /** 1 + x + … + x^(n-1). */
  function GeometricSum(x: real, n: nat): real
    decreases n
  {
    if n == 0 then 0.0 else GeometricSum(x, n - 1) + Pow(x, n - 1)
  }

  lemma {:induction false} GeometricSumClosedForm(x: real, n: nat)
    ensures (x - 1.0) * GeometricSum(x, n) == Pow(x, n) - 1.0
    decreases n
  {
    if n > 0 {
      GeometricSumClosedForm(x, n - 1);
      calc {
        (x - 1.0) * GeometricSum(x, n);
        (x - 1.0) * GeometricSum(x, n - 1) + (x - 1.0) * Pow(x, n - 1);
        Pow(x, n - 1) - 1.0 + (x - 1.0) * Pow(x, n - 1);
        x * Pow(x, n - 1) - 1.0;
      }
    }
  }

  lemma {:induction false} PowAboveOne(x: real, n: nat)
    requires x > 1.0
    ensures Pow(x, n) >= 1.0
    ensures Pow(x, n) < Pow(x, n + 1)
    decreases n
  {
    if n > 0 {
      PowAboveOne(x, n - 1);
    }
    assert Pow(x, n + 1) == x * Pow(x, n);
    assert (x - 1.0) * Pow(x, n) > 0.0;
  }

  lemma {:induction false} GeometricSumBelow(x: real, n: nat)
    requires x > 1.0 && n >= 1
    ensures 1.0 <= GeometricSum(x, n) < n as real * Pow(x, n)
    decreases n
  {
    PowAboveOne(x, n - 1);
    if n == 1 {
      assert GeometricSum(x, 1) == 1.0;
      assert Pow(x, 1) == x;
    } else {
      GeometricSumBelow(x, n - 1);
      assert GeometricSum(x, n) == GeometricSum(x, n - 1) + Pow(x, n - 1);
      assert GeometricSum(x, n) < (n - 1) as real * Pow(x, n - 1) + Pow(x, n - 1);
      assert (n - 1) as real * Pow(x, n - 1) + Pow(x, n - 1) == n as real * Pow(x, n - 1);
      assert n as real * Pow(x, n - 1) < n as real * Pow(x, n);
    }
  }

  lemma QuotientOrder(a: real, b: real, c: real, d: real)
    requires b > 0.0 && d > 0.0 && d * a > c * b
    ensures a / b > c / d
  {
  }

  /** At a positive rate the annuity is defined and charges interest: each
      instalment is larger than the straight-line share of the principal. */
  lemma AnnuityExceedsStraightLine(principal: real, monthlyRate: real, months: nat)
    requires principal > 0.0 && monthlyRate > 0.0 && months > 0
    ensures AnnuityPayment(principal, monthlyRate, months).Some?
    ensures AnnuityPayment(principal, monthlyRate, months).value > principal / months as real
  {
    var x := 1.0 + monthlyRate;
    var g := Pow(x, months);
    var s := GeometricSum(x, months);
    var n := months as real;
    GeometricSumClosedForm(x, months);
    GeometricSumBelow(x, months);
    assert g - 1.0 == monthlyRate * s;
    assert g - 1.0 > 0.0;
    var pr := principal * monthlyRate;
    assert pr > 0.0;
    assert n * (pr * g) > principal * (g - 1.0) by {
      assert principal * (g - 1.0) == pr * s;
      assert n * (pr * g) == pr * (n * g);
      assert n * g > s;
    }
    QuotientOrder(pr * g, g - 1.0, principal, n);
  }
}

=== FILE: repositories.dfy ===
/** The two stores the service uses, as values: customers as a table whose
    identity column counts from 1, loans as a map keyed by loan id. */
module Repositories {
  import opened Wrappers
  import opened Customers
  import opened Loans

  datatype CustomerStore = CustomerStore(rows: seq<Customer>)

  predicate LoginIdsUnique(rows: seq<Customer>) {
    forall i, j :: 0 <= i < j < |rows| ==> rows[i].loginId != rows[j].loginId
  }

  /** Row `i` carries identity `i + 1` and no two rows share a login id. */
  predicate ValidCustomerStore(st: CustomerStore) {
    && (forall i :: 0 <= i < |st.rows| ==> st.rows[i].id == i + 1)
    && LoginIdsUnique(st.rows)
  }

  /** `findByLoginId`: a row with that login id, or null. */
  function FindByLoginId(rows: seq<Customer>, loginId: string): (r: Option<Customer>)
    ensures r.Some? <==> exists i :: 0 <= i < |rows| && rows[i].loginId == loginId
    ensures r.Some? ==> r.value in rows && r.value.loginId == loginId
    decreases |rows|
  {
    if |rows| == 0 then None
    else if rows[0].loginId == loginId then Some(rows[0])
    else
      assert forall i :: 1 <= i < |rows| ==> rows[i] == rows[1..][i - 1];
      FindByLoginId(rows[1..], loginId)
  }

  /** `findById`. */
  function FindById(st: CustomerStore, id: int): (r: Option<Customer>)
    ensures r.Some? <==> 1 <= id <= |st.rows|
    ensures ValidCustomerStore(st) && r.Some? ==> r.value.id == id
  {
    if 1 <= id <= |st.rows| then Some(st.rows[id - 1]) else None
  }

  /** `save` of a new customer: the store assigns the next identity. */
  function InsertCustomer(st: CustomerStore, c: Customer): (r: (CustomerStore, Customer))
    ensures r.1 == c.(id := |st.rows| + 1)
    ensures r.0.rows == st.rows + [r.1]
    ensures ValidCustomerStore(st) && FindByLoginId(st.rows, c.loginId).None? ==> ValidCustomerStore(r.0)
  {
    var saved := c.(id := |st.rows| + 1);
    (CustomerStore(st.rows + [saved]), saved)
  }

  /** `save` of an existing customer: the row with identity `id` is
      overwritten and every other row is kept. */
  function UpdateCustomerRow(st: CustomerStore, id: int, c: Customer): (r: CustomerStore)
    requires 1 <= id <= |st.rows|
    ensures |r.rows| == |st.rows| && r.rows[id - 1] == c
    ensures forall i :: 0 <= i < |st.rows| && i != id - 1 ==> r.rows[i] == st.rows[i]
    ensures FindById(r, id) == Some(c)
  {
    CustomerStore(st.rows[id - 1 := c])
  }

  type LoanStore = map<string, Loan>

  /** Every loan is filed under its own id and fills the columns declared
      NOT NULL: owner, amount and product. */
  predicate ValidLoanStore(m: LoanStore) {
    forall k :: k in m ==>
      m[k].loanId == Some(k) && m[k].customerId.Some? && m[k].amount.Some? && m[k].loanType.Some?
  }

  /** A NOT NULL column left empty, or a loan id already on file. */
  datatype StoreError = NullColumn | DuplicateKey

  /** `save` of a new loan: a missing amount, product or owner violates a
      NOT NULL column; a loan id already on file violates the unique key. */
  function InsertLoan(m: LoanStore, l: Loan): (r: Result<LoanStore, StoreError>)
    requires l.loanId.Some?
    ensures r == Failure(NullColumn) <==> l.amount.None? || l.loanType.None? || l.customerId.None?
    ensures r == Failure(DuplicateKey) <==>
              l.amount.Some? && l.loanType.Some? && l.customerId.Some? && l.loanId.value in m
    ensures r.Success? ==>
              && r.value == m[l.loanId.value := l] && l.loanId.value !in m
              && l.amount.Some? && l.loanType.Some? && l.customerId.Some?
    ensures r.Success? && ValidLoanStore(m) ==> ValidLoanStore(r.value)
  {
    if l.amount.None? || l.loanType.None? || l.customerId.None? then Failure(NullColumn)
    else if l.loanId.value in m then Failure(DuplicateKey)
    else Success(m[l.loanId.value := l])
  }

  /** `findByLoanId`. */
  function FindByLoanId(m: LoanStore, loanId: string): (r: Option<Loan>)
    ensures r.Some? <==> loanId in m
    ensures r.Some? ==> r.value == m[loanId]
  {
    if loanId in m then Some(m[loanId]) else None
  }

  /** `findByCustomerId`: the loans owned by `customerId`, keyed by loan id.
      A null argument matches the loans whose owner column is null, of
      which a well-formed store has none. */
  function FindByCustomerId(m: LoanStore, customerId: Option<string>): (r: map<string, Loan>)
    ensures forall k :: k in r <==> k in m && m[k].customerId == customerId
    ensures forall k :: k in r ==> r[k] == m[k]
    ensures ValidLoanStore(m) && customerId.None? ==> r == map[]
  {
    map k | k in m && m[k].customerId == customerId :: m[k]
  }
}

=== FILE: sessions.dfy ===
/** The login/session record: a bearer credential, whether it is active,
    and when it expires. Its state is (active, jwtToken, bearerToken,
    tokenExpiresAt); the customer details ride along. */
module Sessions {
  import opened Wrappers
  import opened Clock

  /** The scheme prefix of an Authorization header, single space, case-sensitive. */
  const BearerPrefix: string := "Bearer "

  datatype LoginRequest = LoginRequest(
    loginId: Option<string>,
    password: Option<string>,
    jwtToken: Option<string>,
    bearerToken: Option<string>,
    customerId: Option<string>,
    customerName: Option<string>,
    customerEmail: Option<string>,
    customerRole: Option<string>,
    tokenIssuedAt: Option<Instant>,
    tokenExpiresAt: Option<Instant>,
    isTokenActive: bool,
    loginTimestamp: Option<Instant>,
    lastActivity: Option<Instant>)

  /** Non-null and non-empty. */
  predicate Present(s: Option<string>) {
    s.Some? && |s.value| > 0
  }

  /** `isTokenExpired`: only a recorded expiry can pass, and only strictly. */
  predicate IsTokenExpired(r: LoginRequest, now: Instant) {
    r.tokenExpiresAt.Some? && IsAfter(now, r.tokenExpiresAt.value)
  }

  /** `isValidToken`. */
  predicate IsValidToken(r: LoginRequest, now: Instant) {
    Present(r.jwtToken) && r.isTokenActive && !IsTokenExpired(r, now)
  }

  /** `isValidBearerToken`. */
  predicate IsValidBearerToken(r: LoginRequest, now: Instant) {
    Present(r.bearerToken) && r.isTokenActive && !IsTokenExpired(r, now)
  }

  /** A session without a recorded expiry never expires; one with an expiry
      is still live at that very instant and expired at every later one. */
  lemma ExpiryIsStrict(r: LoginRequest, now: Instant)
    ensures r.tokenExpiresAt.None? ==> !IsTokenExpired(r, now)
    ensures r.tokenExpiresAt.Some? ==> (IsTokenExpired(r, now) <==> now > r.tokenExpiresAt.value)
    ensures r.tokenExpiresAt == Some(now) ==> !IsTokenExpired(r, now)
  {
  }

  /** Expiry is permanent: once expired, expired at every later instant;
      so validity, once lost to time, never returns. */
  lemma ExpiryIsMonotone(r: LoginRequest, now: Instant, later: Instant)
    requires now <= later
    ensures IsTokenExpired(r, now) ==> IsTokenExpired(r, later)
    ensures IsValidToken(r, later) ==> IsValidToken(r, now)
    ensures IsValidBearerToken(r, later) ==> IsValidBearerToken(r, now)
  {
  }

  /** `invalidateToken`: deactivates and forgets both tokens; every other
      field, expiry and customer details included, stays in place. */
  function InvalidateToken(r: LoginRequest): (s: LoginRequest)
    ensures !s.isTokenActive && s.jwtToken.None? && s.bearerToken.None?
    ensures forall now :: !IsValidToken(s, now) && !IsValidBearerToken(s, now)
    ensures s.tokenExpiresAt == r.tokenExpiresAt && s.tokenIssuedAt == r.tokenIssuedAt
    ensures s.customerId == r.customerId && s.loginId == r.loginId
    ensures s == r.(isTokenActive := s.isTokenActive, jwtToken := s.jwtToken, bearerToken := s.bearerToken)
  {
    r.(isTokenActive := false, jwtToken := None, bearerToken := None)
  }

  /** Invalidating twice is invalidating once. */
  lemma InvalidateIdempotent(r: LoginRequest)
    ensures InvalidateToken(InvalidateToken(r)) == InvalidateToken(r)
  {
  }

  /** `generateBearerTokenHeader`: the Authorization header for the stored
      bearer token, or null when there is none. */
  function GenerateBearerTokenHeader(r: LoginRequest): (header: Option<string>)
    ensures header.Some? <==> Present(r.bearerToken)
    ensures header.Some? ==> BearerPrefix <= header.value
    ensures header.Some? ==> header.value[|BearerPrefix|..] == r.bearerToken.value
  {
    if Present(r.bearerToken) then Some(BearerPrefix + r.bearerToken.value) else None
  }

  /** `setCustomerDetails`: writes the four customer fields and nothing else. */
  function SetCustomerDetails(r: LoginRequest, customerId: Option<string>, customerName: Option<string>,
                              customerEmail: Option<string>, customerRole: Option<string>): (s: LoginRequest)
    ensures s.customerId == customerId && s.customerName == customerName
    ensures s.customerEmail == customerEmail && s.customerRole == customerRole
    ensures s == r.(customerId := s.customerId, customerName := s.customerName,
                    customerEmail := s.customerEmail, customerRole := s.customerRole)
    ensures forall now :: IsValidToken(s, now) == IsValidToken(r, now)
    ensures forall now :: IsValidBearerToken(s, now) == IsValidBearerToken(r, now)
    ensures GenerateBearerTokenHeader(s) == GenerateBearerTokenHeader(r)
  {
    r.(customerId := customerId, customerName := customerName,
       customerEmail := customerEmail, customerRole := customerRole)
  }
}

=== FILE: wrappers.dfy ===
/** Nullable references and thrown exceptions of the banking backend, as values. */
module Wrappers {

  /** A Java reference that may be null: `None` is null. */
  datatype Option<+T> = None | Some(value: T)

  /** The outcome of an operation that either returns or throws. */
  datatype Result<+T, +E> = Success(value: T) | Failure(error: E)
}
